=== FILE: README.md ===
# Moor Inspector client core, in Dafny

A model of the IntelliJ plugin side of Moor Inspector. Two things are modelled.

The first is `MoorInspectorClient`:
- the set of registered message listeners;
- protocol negotiation: the `protocol` message installs the version-1 handler and fans out `onReady`;
- routing of every other inbound frame to the installed handler;
- the fan-out of each listener callback to every registered listener;
- the four outbound command builders `query`, `update`, `bulkUpdate` and `export`.

The second is `MoorInspectorStatusBar`:
- its connected/disconnected status and stored server info;
- the label text it builds from them;
- how `onServerInfo`, `onReady` and `onClosed` change it.

Modules:

- `Wrappers`: `Option` with failure propagation.
- `JsonTree`: a JSON value tree with ordered object members, and field lookup that returns the first match. JSON numbers are modelled as integers only. A Gson `JsonObject` holds each key once, because `add` replaces the value: the last add wins. Every tree the builders make has distinct keys, and inbound objects are taken to have distinct keys too. On a tree with a repeated key, lookup reads the first occurrence.
- `Numbers`: 32-bit wrap-around, decimal rendering of integers and the parser that reads it back.
- `Protocol`: the server-info record the status bar displays.
- `Listener`: the listener callbacks as an `Event` datatype, the listener set and the fan-out.
- `Commands`: the frames the command builders hand to the transport.
- `Wire`: how a server reads those frames. Its round-trip lemmas prove that each frame carries exactly the request its builder was asked for.
- `Client`: the client as a state machine over inputs. The inputs are registrations, inbound frames, transport closes, handler callbacks and command calls. Each step yields the new state plus its deliveries, forwarded frames and sent frames.
- `StatusBar`: the status bar's transitions and label. `ReadLabel` parses a label from its right-hand end and is the partner of `BuildText`.

Modelling decisions:

- A listener is identified by a `nat` (object identity). The listener set is a `set`, as a `HashSet` is.
- HashSet iteration order is unspecified, so a fan-out is a multiset of deliveries: each registered listener once.
- Parsing inbound text into JSON is outside the model: an inbound frame arrives as a JSON tree. A frame that is not an object, or whose `type` or `protocolVersion` cannot be read, throws before the client changes anything. The model therefore treats it as `Malformed`: no state change and no output.
- `protocolVersion` is read with Gson's `asInt`. The model takes a JSON number as an integer. Gson's truncation of a fraction and its 32-bit wrap are not modelled; they cannot change the route, because every version installs the V1 handler. A JSON string is taken when it parses as a decimal integer in 32-bit range.
- The status bar's table count uses Kotlin `sumBy`, which adds in 32-bit `Int`. `SumTables` models this, wrapping after every addition, and is proved equal to the exact sum wrapped once.
- Where the behaviour of the code is surprising, the model follows the code and states the behaviour as a lemma:
  - Registering a listener twice and unregistering it once leaves it unregistered (`Listener.RegisterTwiceUnregisterOnce`).
  - A second `protocol` message re-installs the handler and readies every listener again (`Client.NegotiateTwice`).
  - A transport close does not uninstall the handler (`Client.CloseNotifiesAll`, `Client.ClosedStillForwards`).
  - `onReady` does not redraw the status text (`StatusBar.ReadyLeavesLabelStale`).

## Model

All paths are under `ui/plugin/src/main/kotlin/com/chimerapps/moorinspector/`; the table writes them in full.

| member | source | states |
|---|---|---|
| Listener.Register | ui/plugin/src/main/kotlin/com/chimerapps/moorinspector/client/MoorInspectorClient.kt:32-36 | afterwards the listener is registered and no other listener's membership changes; registering an already registered listener changes nothing |
| Listener.Unregister | ui/plugin/src/main/kotlin/com/chimerapps/moorinspector/client/MoorInspectorClient.kt:38-42 | afterwards the listener is not registered and no other listener's membership changes; removing an absent listener changes nothing |
| Listener.FanOut | ui/plugin/src/main/kotlin/com/chimerapps/moorinspector/client/MoorInspectorClient.kt:59-92 | a callback reaches each registered listener exactly once and no one else, with its arguments unchanged |
| Listener.RegisterTwiceUnregisterOnce | ui/plugin/src/main/kotlin/com/chimerapps/moorinspector/client/MoorInspectorClient.kt:28-42 | registration is set-based, not counted: one unregister undoes any number of registers |
| Commands.ActionItems | ui/plugin/src/main/kotlin/com/chimerapps/moorinspector/client/MoorInspectorClient.kt:126-140 | the batch holds one `update` wrapper per action, in order, each built from that action |
| Client.RegisterProtocolHandler | ui/plugin/src/main/kotlin/com/chimerapps/moorinspector/client/MoorInspectorClient.kt:44-49 | whatever version is named, the V1 handler is installed, the listeners are kept, and every registered listener gets `onReady` exactly once; nothing is forwarded or sent |
| Client.OnMessage | ui/plugin/src/main/kotlin/com/chimerapps/moorinspector/client/MoorInspectorClient.kt:198-208 | a `protocol` message negotiates and is not forwarded; any other frame leaves the state alone and reaches the installed handler, unchanged, only when its type is readable and a handler is installed |
| Client.Step | ui/plugin/src/main/kotlin/com/chimerapps/moorinspector/client/MoorInspectorClient.kt:32-216 | no input delivers a callback twice to one listener, or at all to an unregistered one; a handler once installed stays installed; nothing is forwarded without a handler |
| Client.RunDeliveries | ui/plugin/src/main/kotlin/com/chimerapps/moorinspector/client/MoorInspectorClient.kt:59-92 | over any interleaving of registrations and events, a listener receives a callback exactly as often as that callback fired while it was registered |
| Client.UnregisteredHearsNothing | ui/plugin/src/main/kotlin/com/chimerapps/moorinspector/client/MoorInspectorClient.kt:28-42 | a listener never registered during a run receives nothing |
| Client.NegotiationReadies | ui/plugin/src/main/kotlin/com/chimerapps/moorinspector/client/MoorInspectorClient.kt:200-205 | the `{"type":"protocol","protocolVersion":v}` message installs the V1 handler and readies every listener once, for every v |
| Client.NegotiateTwice | ui/plugin/src/main/kotlin/com/chimerapps/moorinspector/client/MoorInspectorClient.kt:44-49 | a second negotiation is not rejected: the handler is re-installed and each listener hears `onReady` twice |
| Client.NothingBeforeNegotiation | ui/plugin/src/main/kotlin/com/chimerapps/moorinspector/client/MoorInspectorClient.kt:207 | over registrations, commands and non-negotiating frames (no close and no handler callback), no frame reaches a handler, no listener is called and no handler gets installed |
| Client.ForwardedAfterNegotiation | ui/plugin/src/main/kotlin/com/chimerapps/moorinspector/client/MoorInspectorClient.kt:203-207 | once a handler is installed, exactly the routable non-protocol frames reach it, unchanged and in arrival order |
| Client.CloseNotifiesAll | ui/plugin/src/main/kotlin/com/chimerapps/moorinspector/client/MoorInspectorClient.kt:191-196 | a close notifies every registered listener once, the same whichever side closed, and keeps the listeners and the handler |
| Client.ClosedStillForwards | ui/plugin/src/main/kotlin/com/chimerapps/moorinspector/client/MoorInspectorClient.kt:191-207 | a close leaves the handler installed: every routable frame arriving after it still reaches the handler, in order |
| Client.RunSends | ui/plugin/src/main/kotlin/com/chimerapps/moorinspector/client/MoorInspectorClient.kt:94-156 | the frames the client's command methods send are exactly those of the command calls, in call order, whatever the negotiation or listener state |
| Wire.QueryTextRoundTrip | ui/plugin/src/main/kotlin/com/chimerapps/moorinspector/client/MoorInspectorClient.kt:94-96 | for arguments without quotes, backslashes or control characters, the `filter` text reads back as a filter request with exactly the given database id, request id and query |
| Wire.QueryTextUnescapedRejected | ui/plugin/src/main/kotlin/com/chimerapps/moorinspector/client/MoorInspectorClient.kt:94-96 | a quote, backslash or control character in the query is spliced in unescaped, so the text no longer matches the template; a multi-line query is one such case (Wire.MultiLineQueryRejected) |
| Wire.QueryTextInjection | ui/plugin/src/main/kotlin/com/chimerapps/moorinspector/client/MoorInspectorClient.kt:94-96 | a query holding a member separator yields the text of the frame for its leading part with a second `query` or `requestId` member appended |
| Wire.UpdateRoundTrip | ui/plugin/src/main/kotlin/com/chimerapps/moorinspector/client/MoorInspectorClient.kt:98-118 | the `update` frame reads back with exactly the given database id, request id, query, affected tables in order, and variables |
| Wire.BatchRoundTrip | ui/plugin/src/main/kotlin/com/chimerapps/moorinspector/client/MoorInspectorClient.kt:120-143 | the `batch` frame reads back with the request id and, per action in order, the outer database id and that action's query, tables and variables |
| Wire.BatchShape | ui/plugin/src/main/kotlin/com/chimerapps/moorinspector/client/MoorInspectorClient.kt:123-137 | the request id appears only in the outer body; each action body has exactly the keys databaseId, query, affectedTables, variables, so it has no request id and carries the outer database id |
| Wire.EmptyBatchDropsDatabaseId | ui/plugin/src/main/kotlin/com/chimerapps/moorinspector/client/MoorInspectorClient.kt:120-143 | with no actions the database id appears nowhere: batches that differ only in it are identical on the wire |
| Wire.ExportRoundTrip | ui/plugin/src/main/kotlin/com/chimerapps/moorinspector/client/MoorInspectorClient.kt:145-156 | the `export` frame reads back with exactly the given database id, request id and table names in order |
| Wire.EncodeRoundTrip | ui/plugin/src/main/kotlin/com/chimerapps/moorinspector/client/MoorInspectorClient.kt:94-156 | every command frame reads back as the request its builder was asked to make |
| JsonTree.StringArrayRoundTrip | ui/plugin/src/main/kotlin/com/chimerapps/moorinspector/client/MoorInspectorClient.kt:112-114 | a list of strings added one by one to a JsonArray reads back as the same list |
| JsonTree.AsStringsExactly | ui/plugin/src/main/kotlin/com/chimerapps/moorinspector/client/MoorInspectorClient.kt:112-114 | a value reads back as a list of strings if and only if it is exactly the JsonArray built by adding those strings in turn |
| Numbers.IntTextRoundTrip | ui/plugin/src/main/kotlin/com/chimerapps/moorinspector/ui/view/MoorInspectorStatusBar.kt:80-82 | the decimal text of an integer appended to the label parses back to that integer |
| StatusBar.Init | ui/plugin/src/main/kotlin/com/chimerapps/moorinspector/ui/view/MoorInspectorStatusBar.kt:22-35 | a new bar is disconnected, has no server info, and shows the disconnected text and icon |
| StatusBar.OnServerInfo | ui/plugin/src/main/kotlin/com/chimerapps/moorinspector/ui/view/MoorInspectorStatusBar.kt:37-40 | the info is replaced wholesale and the status and icon are kept; a disconnected bar still shows the disconnected text, and a connected one shows the text built from the new info |
| StatusBar.OnReady | ui/plugin/src/main/kotlin/com/chimerapps/moorinspector/ui/view/MoorInspectorStatusBar.kt:42-45 | the status and icon become connected; the info and the text are left as they were |
| StatusBar.OnClosed | ui/plugin/src/main/kotlin/com/chimerapps/moorinspector/ui/view/MoorInspectorStatusBar.kt:47-52 | from any state: disconnected, no info, the disconnected text and icon |
| StatusBar.CloseResets | ui/plugin/src/main/kotlin/com/chimerapps/moorinspector/ui/view/MoorInspectorStatusBar.kt:22-52 | closing returns the bar to exactly its initial state |
| StatusBar.StatusText | ui/plugin/src/main/kotlin/com/chimerapps/moorinspector/ui/view/MoorInspectorStatusBar.kt:54-58 | a disconnected bar shows the disconnected text whatever info is stored; a connected bar with no info shows the bare connected text |
| StatusBar.BuildText | ui/plugin/src/main/kotlin/com/chimerapps/moorinspector/ui/view/MoorInspectorStatusBar.kt:74-85 | with no info the text is the prefix alone; with info it begins with prefix, glue and bundle id |
| StatusBar.ReadLabelRoundTrip | ui/plugin/src/main/kotlin/com/chimerapps/moorinspector/ui/view/MoorInspectorStatusBar.kt:74-85 | the label with info shows the database count, the (32-bit) table count and the protocol version, and each reads back exactly, whatever the bundle id holds |
| StatusBar.SumTables | ui/plugin/src/main/kotlin/com/chimerapps/moorinspector/ui/view/MoorInspectorStatusBar.kt:81 | summing with wrap-around after every addition equals the exact table count wrapped once to 32 bits, and equals the exact count when that fits |
| StatusBar.TableCountGrows | ui/plugin/src/main/kotlin/com/chimerapps/moorinspector/ui/view/MoorInspectorStatusBar.kt:81 | another database adds exactly its tables to the exact count |
| StatusBar.ShownTableCountWraps | ui/plugin/src/main/kotlin/com/chimerapps/moorinspector/ui/view/MoorInspectorStatusBar.kt:81 | the shown count is not monotone: one more table past `Int.MAX_VALUE` shows as `Int.MIN_VALUE` |
| StatusBar.IconStaysCurrent | ui/plugin/src/main/kotlin/com/chimerapps/moorinspector/ui/view/MoorInspectorStatusBar.kt:42-71 | after any sequence of callbacks, the icon matches the status |
| StatusBar.LabelStaysCurrent | ui/plugin/src/main/kotlin/com/chimerapps/moorinspector/ui/view/MoorInspectorStatusBar.kt:37-62 | every callback except `onReady` keeps the text in step with status and info |
| StatusBar.ReadyFreeKeepsLabel | ui/plugin/src/main/kotlin/com/chimerapps/moorinspector/ui/view/MoorInspectorStatusBar.kt:37-62 | over any run of callbacks without `onReady`, a text in step with status and info stays in step |
| StatusBar.LabelCurrentSinceRefresh | ui/plugin/src/main/kotlin/com/chimerapps/moorinspector/ui/view/MoorInspectorStatusBar.kt:37-62 | whatever came before, the text is in step once server info or a close has arrived with no `onReady` since |
| StatusBar.ReadyLeavesLabelStale | ui/plugin/src/main/kotlin/com/chimerapps/moorinspector/ui/view/MoorInspectorStatusBar.kt:42-45 | straight after connecting, the bar is connected but still shows the disconnected text; that text is current only if the two localized texts coincide |
| StatusBar.ReadyThenServerInfo | ui/plugin/src/main/kotlin/com/chimerapps/moorinspector/ui/view/MoorInspectorStatusBar.kt:37-45 | server info arriving after `onReady` brings the text up to date with the connected text for that info |

## Left out

- The WebSocket transport is not modelled: `connect`, `close`, `onOpen`, `onError` and the library's behaviour when `send` is called without a connection. A frame handed to `sendString` is an output of the step.
- Text-to-JSON parsing and JSON printing by Gson are not modelled. Inbound frames arrive as trees. Outbound `update`, `batch` and `export` frames are trees, since JsonObject.toString escapes strings. Gson's lenient conversions of `type` and `protocolVersion` are modelled only for the common cases: a string or a number `type`, and a number or decimal-string version. Other conversions are treated as malformed, for example a one-element array, or a string version with a leading `+` or with non-ASCII Unicode digits, both of which `Integer.parseInt` accepts.
- Client.RunSends: frames the installed handler sends on the socket it receives at line 207 of MoorInspectorClient.kt are not modelled. Neither a forwarded frame nor a handler callback sends anything in the model, so the sent log holds only the command methods' frames.
- The V1 protocol handler's decoding is left out (`MoorInspectorV1ProtocolHandler` is not part of this model). The callbacks it makes enter the model as `HandlerEvent` inputs, and forwarded frames are an output.
- `MoorInspectorVariable` serialisation by `Gson.toJsonTree` is not modelled: the `variables` of a command are already a JSON tree.
- Concurrency is not modelled: the `synchronized` blocks, and the fan-outs that do not take the lock. Each input is applied atomically.
- Listener.FanOut: assumes every listener callback returns normally and leaves the registry alone. The source's `clientListeners.forEach` isolates neither case. A callback that throws stops the iteration, so the listeners after it miss the event; on `onReady` the handler is already installed by then. A callback that registers or unregisters a listener makes the HashSet iterator throw ConcurrentModificationException on the same thread, and the re-entrant lock in `onClose` does not prevent this. Client.RunDeliveries rests on the same assumption.
- Logging is not modelled.
- The Swing side of the status bar is not modelled: panel layout, border, icons as images, `ensureMain` scheduling. The localized strings are opaque parameters (`Texts`).
- Server-info fields the label does not use are not modelled.
- Wire.EncodeRoundTrip: requires that the `query` arguments hold no double quote, backslash or control character (U+0000 to U+001F). `query` splices them into its template unescaped. Wire.QueryTextUnescapedRejected shows the frame no longer matching the template when they do, and Wire.QueryTextInjection shows a crafted query adding members to the frame's text.
- Wire.QueryTextRoundTrip: requires arguments free of quotes, backslashes and control characters, for the same reason. The model does not decide what a lenient or last-wins JSON reader makes of a frame that breaks the template.
- Client.Step: states that a handler, once installed, stays installed, but not which one; only the V1 handler exists.

=== FILE: client.dfy ===
/**
 * MoorInspectorClient as a state machine: the listener set, the installed
 * protocol handler, and how each input (a listener (un)registration, an
 * inbound frame, a transport close, a handler callback, a command call)
 * changes the state and what it delivers, forwards or sends.
 */
module Client {
  import opened Wrappers
  import opened JsonTree
  import opened Numbers
  import opened Listener
  import opened Commands

  /** The reserved `type` of the negotiation message. */
  const MessageTypeProtocol: string := "protocol"

  /** The protocol handlers the client can install; only version 1 exists. */
  datatype Handler = V1Handler

  /** Version selection: a `when` with only an `else` branch, so every version gets the V1 handler. */
  function SelectHandler(protocolVersion: int): Handler
  {
    V1Handler
  }

  /** The client's state: who listens, and which handler decodes inbound messages. */
  datatype ClientState = ClientState(listeners: set<ListenerId>, handler: Option<Handler>)

  /** A freshly constructed client: no listeners, no handler. */
  const Initial: ClientState := ClientState({}, None)

  /** What `onMessage` does with a parsed frame. */
  datatype Route = Negotiate(protocolVersion: int) | Forward | Malformed

  /**
   * `json.get("type").asString` and, for the negotiation message,
   * `json.get("protocolVersion").asInt`. A missing member, or one Gson cannot
   * convert, throws before the client changes anything: that frame is Malformed.
   */
  function RouteOf(envelope: Json): Route
  {
    match Field(envelope, "type")
    case Some(JString(t)) =>
      if t == MessageTypeProtocol then
        match Field(envelope, "protocolVersion")
        case Some(JNumber(v)) => Negotiate(v)
        case Some(JString(text)) =>
          (match ParseInt(text)
           case Some(v) => if Int32Min <= v <= Int32Max then Negotiate(v) else Malformed
           case None => Malformed)
        case _ => Malformed
      else Forward
    case Some(JNumber(_)) => Forward
    case Some(JBool(_)) => Forward
    case _ => Malformed
  }

  /** The negotiation message `{"type":"protocol","protocolVersion":v}`. */
  function ProtocolMessage(protocolVersion: int): Json
  {
    JObject([("type", JString(MessageTypeProtocol)), ("protocolVersion", JNumber(protocolVersion))])
  }

  /** One input to the client. */
  datatype Input =
    | RegisterListener(listener: ListenerId)
    | UnregisterListener(listener: ListenerId)
      /** WebSocketMoorInspectorClient.onMessage, with the frame already parsed. */
    | FrameReceived(envelope: Json)
      /** WebSocketMoorInspectorClient.onClose, after a local `close()` or a remote one. */
    | TransportClosed(code: int, reason: string, remote: bool)
      /** The installed handler calling one of the client's listener callbacks. */
    | HandlerEvent(event: Event)
      /** A call of `query`, `update`, `bulkUpdate` or `export`. */
    | CommandIssued(command: Command)

  /** What one or more inputs produce. */
  datatype Output = Output(
    deliveries: multiset<Delivery>,
    forwarded: seq<(Handler, Json)>,
    sent: seq<Frame>)

  const NoOutput: Output := Output(multiset{}, [], [])

  /** The outputs of two inputs taken one after the other. */
  function Then(first: Output, second: Output): Output
  {
    Output(first.deliveries + second.deliveries, first.forwarded + second.forwarded, first.sent + second.sent)
  }

  datatype Transition = Transition(state: ClientState, output: Output)

  /** `registerProtocolHandler`: install the selected handler, then fan out `onReady`. */
  function RegisterProtocolHandler(s: ClientState, protocolVersion: int): (t: Transition)
    ensures t.state == ClientState(s.listeners, Some(V1Handler))
    ensures forall d :: t.output.deliveries[d] == (if d.listener in s.listeners && d.event == Ready then 1 else 0)
    ensures t.output.forwarded == [] && t.output.sent == []
  {
    Transition(s.(handler := Some(SelectHandler(protocolVersion))),
               Output(FanOut(s.listeners, Ready), [], []))
  }

  /** `onMessage`: negotiate, forward to the installed handler, or drop. */
  function OnMessage(s: ClientState, envelope: Json): (t: Transition)
    ensures t.state.listeners == s.listeners && t.output.sent == []
    ensures RouteOf(envelope).Negotiate? ==>
      t.state.handler == Some(V1Handler) && t.output.forwarded == []
      && forall d :: t.output.deliveries[d] == (if d.listener in s.listeners && d.event == Ready then 1 else 0)
    ensures !RouteOf(envelope).Negotiate? ==>
      t.state == s && t.output.deliveries == multiset{}
      && t.output.forwarded == (if RouteOf(envelope).Forward? && s.handler.Some? then [(s.handler.value, envelope)] else [])
  {
    match RouteOf(envelope)
    case Negotiate(v) => RegisterProtocolHandler(s, v)
    case Forward =>
      (match s.handler
       case Some(h) => Transition(s, Output(multiset{}, [(h, envelope)], []))
       case None => Transition(s, NoOutput))
    case Malformed => Transition(s, NoOutput)
  }

  /** One input applied to the client. */
  function Step(s: ClientState, input: Input): (t: Transition)
    ensures forall d :: t.output.deliveries[d] <= 1
    ensures forall d :: t.output.deliveries[d] > 0 ==> d.listener in s.listeners
    ensures s.handler.Some? ==> t.state.handler.Some?
    ensures |t.output.forwarded| > 0 ==> s.handler.Some?
  {
    match input
    case RegisterListener(l) => Transition(s.(listeners := Register(s.listeners, l)), NoOutput)
    case UnregisterListener(l) => Transition(s.(listeners := Unregister(s.listeners, l)), NoOutput)
    case FrameReceived(envelope) => OnMessage(s, envelope)
    case TransportClosed(_, _, _) => Transition(s, Output(FanOut(s.listeners, Closed), [], []))
    case HandlerEvent(e) => Transition(s, Output(FanOut(s.listeners, e), [], []))
    case CommandIssued(c) => Transition(s, Output(multiset{}, [], [Encode(c)]))
  }

  /** Inputs applied in order; the outputs accumulate. */
  function Run(s: ClientState, inputs: seq<Input>): Transition
    decreases |inputs|
  {
    if |inputs| == 0 then Transition(s, NoOutput)
    else
      var first := Step(s, inputs[0]);
      var rest := Run(first.state, inputs[1..]);
      Transition(rest.state, Then(first.output, rest.output))
  }

  // ---------------------------------------------------------------------------
  // Fan-out over a whole run
  // ---------------------------------------------------------------------------

  /** The listener callback an input fans out, if it fans one out. */
  function Fired(input: Input): Option<Event>
  {
    match input
    case FrameReceived(envelope) => if RouteOf(envelope).Negotiate? then Some(Ready) else None
    case TransportClosed(_, _, _) => Some(Closed)
    case HandlerEvent(e) => Some(e)
    case _ => None
  }

  /** Each step delivers its callback, if any, once to every listener registered before it. */
  lemma StepFansOut(s: ClientState, input: Input)
    ensures Step(s, input).output.deliveries
         == (match Fired(input) case Some(e) => FanOut(s.listeners, e) case None => multiset{})
  {
  }

  /** Every callback fired during a run, with the listeners registered when it fired. */
  function Firings(s: ClientState, inputs: seq<Input>): seq<(set<ListenerId>, Event)>
    decreases |inputs|
  {
    if |inputs| == 0 then []
    else
      var now := match Fired(inputs[0]) case Some(e) => [(s.listeners, e)] case None => [];
      now + Firings(Step(s, inputs[0]).state, inputs[1..])
  }

  /** How many of the firings reach listener `l` with callback `e`. */
  function Count(firings: seq<(set<ListenerId>, Event)>, l: ListenerId, e: Event): nat
  {
    if |firings| == 0 then 0
    else (if l in firings[0].0 && firings[0].1 == e then 1 else 0) + Count(firings[1..], l, e)
  }

  lemma {:induction false} CountAppend(a: seq<(set<ListenerId>, Event)>, b: seq<(set<ListenerId>, Event)>,
                                       l: ListenerId, e: Event)
    ensures Count(a + b, l, e) == Count(a, l, e) + Count(b, l, e)
  {
    if |a| == 0 {
      assert a + b == b;
    } else {
      assert (a + b)[0] == a[0];
      assert (a + b)[1..] == a[1..] + b;
      CountAppend(a[1..], b, l, e);
    }
  }

  /**
   * Over any interleaving of registrations and events, a listener receives a
   * callback exactly as many times as that callback fired while it was
   * registered: once per firing, never when unregistered.
   */
  lemma {:induction false} RunDeliveries(s: ClientState, inputs: seq<Input>, l: ListenerId, e: Event)
    ensures Run(s, inputs).output.deliveries[Delivery(l, e)] == Count(Firings(s, inputs), l, e)
    decreases |inputs|
  {
    if |inputs| > 0 {
      var first := Step(s, inputs[0]);
      var now := match Fired(inputs[0]) case Some(ev) => [(s.listeners, ev)] case None => [];
      RunDeliveries(first.state, inputs[1..], l, e);
      CountAppend(now, Firings(first.state, inputs[1..]), l, e);
      StepFansOut(s, inputs[0]);
    }
  }

  /** A listener that is never registered never hears anything. */
  lemma {:induction false} UnregisteredHearsNothing(s: ClientState, inputs: seq<Input>, l: ListenerId, e: Event)
    requires l !in s.listeners
    requires forall k :: 0 <= k < |inputs| ==> inputs[k] != RegisterListener(l)
    ensures Run(s, inputs).output.deliveries[Delivery(l, e)] == 0
    decreases |inputs|
  {
    if |inputs| > 0 {
      var first := Step(s, inputs[0]);
      assert l !in first.state.listeners;
      UnregisteredHearsNothing(first.state, inputs[1..], l, e);
    }
  }

  // ---------------------------------------------------------------------------
  // Negotiation
  // ---------------------------------------------------------------------------

  lemma ProtocolMessageRoute(protocolVersion: int)
    ensures RouteOf(ProtocolMessage(protocolVersion)) == Negotiate(protocolVersion)
  {
    var members := [("type", JString(MessageTypeProtocol)), ("protocolVersion", JNumber(protocolVersion))];
    assert Keys(members) == ["type", "protocolVersion"];
    LookupDistinct(members, 0);
    LookupDistinct(members, 1);
  }

  /** Whatever version it names, the negotiation message installs the V1 handler and readies every listener once. */
  lemma NegotiationReadies(s: ClientState, protocolVersion: int)
    ensures var t := Step(s, FrameReceived(ProtocolMessage(protocolVersion)));
      && t.state == ClientState(s.listeners, Some(V1Handler))
      && t.output.forwarded == []
      && forall l :: t.output.deliveries[Delivery(l, Ready)] == (if l in s.listeners then 1 else 0)
  {
    ProtocolMessageRoute(protocolVersion);
  }

  /** There is no guard against a second negotiation: it re-installs the handler and readies everyone again. */
  lemma NegotiateTwice(s: ClientState, v1: int, v2: int)
    ensures var t := Run(s, [FrameReceived(ProtocolMessage(v1)), FrameReceived(ProtocolMessage(v2))]);
      && t.state == ClientState(s.listeners, Some(V1Handler))
      && forall l :: l in s.listeners ==> t.output.deliveries[Delivery(l, Ready)] == 2
  {
    var inputs := [FrameReceived(ProtocolMessage(v1)), FrameReceived(ProtocolMessage(v2))];
    var first := Step(s, inputs[0]);
    var second := Step(first.state, inputs[1]);
    NegotiationReadies(s, v1);
    NegotiationReadies(first.state, v2);
    assert inputs[1..] == [inputs[1]];
    assert Run(first.state, [inputs[1]]) == Transition(second.state, Then(second.output, NoOutput));
    assert Run(s, inputs) == Transition(second.state, Then(first.output, Then(second.output, NoOutput)));
  }

  /** Inputs that cannot negotiate and fire nothing. */
  predicate BeforeNegotiation(input: Input) {
    || input.RegisterListener?
    || input.UnregisterListener?
    || input.CommandIssued?
    || (input.FrameReceived? && !RouteOf(input.envelope).Negotiate?)
  }

  /** Until a negotiation message arrives, no frame reaches a handler and no listener is called. */
  lemma {:induction false} NothingBeforeNegotiation(s: ClientState, inputs: seq<Input>)
    requires s.handler.None?
    requires forall k :: 0 <= k < |inputs| ==> BeforeNegotiation(inputs[k])
    ensures Run(s, inputs).state.handler.None?
    ensures Run(s, inputs).output.deliveries == multiset{}
    ensures Run(s, inputs).output.forwarded == []
    decreases |inputs|
  {
    if |inputs| > 0 {
      NothingBeforeNegotiation(Step(s, inputs[0]).state, inputs[1..]);
    }
  }

  /** The non-negotiation frames of a run, as the handler receives them. */
  function HandlerFrames(inputs: seq<Input>): seq<(Handler, Json)>
  {
    if |inputs| == 0 then []
    else
      (if inputs[0].FrameReceived? && RouteOf(inputs[0].envelope).Forward? then [(V1Handler, inputs[0].envelope)] else [])
      + HandlerFrames(inputs[1..])
  }

  /** With a handler installed, one input forwards its frame exactly when the frame is routable. */
  lemma StepForwards(s: ClientState, input: Input)
    requires s.handler.Some?
    ensures Step(s, input).state.handler.Some?
    ensures Step(s, input).output.forwarded
         == if input.FrameReceived? && RouteOf(input.envelope).Forward? then [(V1Handler, input.envelope)] else []
  {
    assert s.handler.value == V1Handler;
  }

  /** Once a handler is installed, every routable non-negotiation frame reaches it unchanged and in order. */
  lemma {:induction false} ForwardedAfterNegotiation(s: ClientState, inputs: seq<Input>)
    requires s.handler.Some?
    ensures Run(s, inputs).output.forwarded == HandlerFrames(inputs)
    decreases |inputs|
  {
    if |inputs| > 0 {
      var first := Step(s, inputs[0]);
      StepForwards(s, inputs[0]);
      ForwardedAfterNegotiation(first.state, inputs[1..]);
      assert HandlerFrames(inputs) == first.output.forwarded + HandlerFrames(inputs[1..]);
    }
  }

  // ---------------------------------------------------------------------------
  // Close and send
  // ---------------------------------------------------------------------------

  /**
   * A transport close notifies every registered listener once, whichever side
   * closed; it keeps the listeners and does not uninstall the handler.
   */
  lemma CloseNotifiesAll(s: ClientState, code: int, reason: string, remote: bool)
    ensures Step(s, TransportClosed(code, reason, remote)).state == s
    ensures forall l :: Step(s, TransportClosed(code, reason, remote)).output.deliveries[Delivery(l, Closed)]
                     == (if l in s.listeners then 1 else 0)
    ensures Step(s, TransportClosed(code, reason, remote)) == Step(s, TransportClosed(code, reason, !remote))
  {
  }

  /** After a close the handler stays installed, so frames arriving later still reach it. */
  lemma ClosedStillForwards(s: ClientState, code: int, reason: string, remote: bool, later: seq<Input>)
    requires s.handler.Some?
    ensures Run(s, [TransportClosed(code, reason, remote)] + later).output.forwarded == HandlerFrames(later)
  {
    var inputs := [TransportClosed(code, reason, remote)] + later;
    assert inputs[0] == TransportClosed(code, reason, remote) && inputs[1..] == later;
    ForwardedAfterNegotiation(s, later);
  }

  /** The frames a run's command calls hand to the transport, in call order. */
  function CommandFrames(inputs: seq<Input>): seq<Frame>
  {
    if |inputs| == 0 then []
    else (if inputs[0].CommandIssued? then [Encode(inputs[0].command)] else []) + CommandFrames(inputs[1..])
  }

  /**
   * The frames the client's command methods send depend on nothing but the
   * calls: not on negotiation, not on listeners. Frames a handler sends on the
   * socket it is handed are outside the model.
   */
  lemma {:induction false} RunSends(s: ClientState, inputs: seq<Input>)
    ensures Run(s, inputs).output.sent == CommandFrames(inputs)
    decreases |inputs|
  {
    if |inputs| > 0 {
      RunSends(Step(s, inputs[0]).state, inputs[1..]);
    }
  }
}

=== FILE: commands.dfy ===
/**
 * The four outbound command builders of MoorInspectorClient (`query`,
 * `update`, `bulkUpdate`, `export`): the frame each one hands to the
 * transport's `sendString`.
 */
module Commands {
  import opened Wrappers
  import opened JsonTree

  /** One statement of a batch (BulkActionData); `variables` is already a JSON tree. */
  datatype BulkAction = BulkAction(query: string, affectedTables: seq<string>, variables: Json)

  /** A call of one of the client's command methods. */
  datatype Command =
    | Query(requestId: string, databaseId: string, query: string)
    | Update(requestId: string, databaseId: string, query: string, affectedTables: seq<string>, variables: Json)
    | BulkUpdate(requestId: string, databaseId: string, actions: seq<BulkAction>)
    | Export(requestId: string, databaseId: string, tableNames: seq<string>)

  /**
   * What `sendString` puts on the wire: the literal text built by `query`,
   * or a tree the other builders print with JsonObject.toString.
   */
  datatype Frame = TextFrame(text: string) | TreeFrame(tree: Json)

  // ---------------------------------------------------------------------------
  // query: a fixed text template with the three arguments spliced in unescaped
  // ---------------------------------------------------------------------------

  const FilterHead: string := "{\"type\":\"filter\", \"body\": {\"databaseId\":\""
  const AfterDatabaseId: string := "\",\"requestId\":\""
  const AfterRequestId: string := "\",\"query\":\""
  const FilterTail: string := "\"}}"

  /** The text `query` sends. */
  function QueryText(requestId: string, databaseId: string, query: string): string
  {
    FilterHead + databaseId + AfterDatabaseId + requestId + AfterRequestId + query + FilterTail
  }

  // ---------------------------------------------------------------------------
  // update, bulkUpdate, export: JSON trees built with JsonObject
  // ---------------------------------------------------------------------------

  /** `{"type": kind, "body": {...}}`. */
  function Envelope(kind: string, body: seq<(string, Json)>): Json
  {
    JObject([("type", JString(kind)), ("body", JObject(body))])
  }

  /** The body `update` fills in, member by member. */
  function UpdateBody(requestId: string, databaseId: string, query: string,
                      affectedTables: seq<string>, variables: Json): seq<(string, Json)>
  {
    [ ("databaseId", JString(databaseId)),
      ("requestId", JString(requestId)),
      ("query", JString(query)),
      ("affectedTables", StringArray(affectedTables)),
      ("variables", variables)]
  }

  /** The tree `update` sends. */
  function UpdateEnvelope(requestId: string, databaseId: string, query: string,
                          affectedTables: seq<string>, variables: Json): Json
  {
    Envelope("update", UpdateBody(requestId, databaseId, query, affectedTables, variables))
  }

  /** The body of one batch action: the outer database id, and no request id of its own. */
  function ActionBody(databaseId: string, action: BulkAction): seq<(string, Json)>
  {
    [ ("databaseId", JString(databaseId)),
      ("query", JString(action.query)),
      ("affectedTables", StringArray(action.affectedTables)),
      ("variables", action.variables)]
  }

  /** The items of the `actions` array, one `update` wrapper added per action in turn. */
  function ActionItems(databaseId: string, actions: seq<BulkAction>): (items: seq<Json>)
    ensures |items| == |actions|
    ensures forall i :: 0 <= i < |actions| ==> items[i] == Envelope("update", ActionBody(databaseId, actions[i]))
  {
    if |actions| == 0 then []
    else ActionItems(databaseId, actions[..|actions| - 1])
         + [Envelope("update", ActionBody(databaseId, actions[|actions| - 1]))]
  }

  /** The tree `bulkUpdate` sends. */
  function BatchEnvelope(requestId: string, databaseId: string, actions: seq<BulkAction>): Json
  {
    Envelope("batch", [
      ("requestId", JString(requestId)),
      ("actions", JArray(ActionItems(databaseId, actions)))])
  }

  /** The body `export` fills in, member by member. */
  function ExportBody(requestId: string, databaseId: string, tableNames: seq<string>): seq<(string, Json)>
  {
    [ ("databaseId", JString(databaseId)),
      ("requestId", JString(requestId)),
      ("tables", StringArray(tableNames))]
  }

  /** The tree `export` sends. */
  function ExportEnvelope(requestId: string, databaseId: string, tableNames: seq<string>): Json
  {
    Envelope("export", ExportBody(requestId, databaseId, tableNames))
  }

  /** The frame a command method hands to `sendString`. */
  function Encode(c: Command): Frame
  {
    match c
    case Query(r, d, q) => TextFrame(QueryText(r, d, q))
    case Update(r, d, q, ts, vs) => TreeFrame(UpdateEnvelope(r, d, q, ts, vs))
    case BulkUpdate(r, d, acts) => TreeFrame(BatchEnvelope(r, d, acts))
    case Export(r, d, ts) => TreeFrame(ExportEnvelope(r, d, ts))
  }

}

=== FILE: json.dfy ===
/**
 * An abstract JSON tree, standing in for Gson's JsonElement. Parsing and
 * printing are done by Gson and are not modelled: inbound frames arrive
 * already parsed and outbound trees are sent as they are.
 */
module JsonTree {
  import opened Wrappers

  /** A JSON value; an object keeps its members in insertion order, as JsonObject does. */
  datatype Json =
    | JNull
    | JBool(truth: bool)
    | JNumber(number: int)
    | JString(text: string)
    | JArray(items: seq<Json>)
    | JObject(members: seq<(string, Json)>)

  /** The keys of an object's members, in order. */
  function Keys(members: seq<(string, Json)>): (ks: seq<string>)
    ensures |ks| == |members|
    ensures forall i :: 0 <= i < |members| ==> ks[i] == members[i].0
  {
    if |members| == 0 then [] else [members[0].0] + Keys(members[1..])
  }

  /** The value of the first member named `key`, if there is one. */
  function Lookup(members: seq<(string, Json)>, key: string): (r: Option<Json>)
    ensures r.Some? <==> key in Keys(members)
    ensures r.Some? ==> (key, r.value) in members
  {
    if |members| == 0 then None
    else if members[0].0 == key then Some(members[0].1)
    else Lookup(members[1..], key)
  }

  /** Lookup finds the first member carrying the key and no later one. */
  lemma {:induction false} LookupFirst(members: seq<(string, Json)>, i: nat, key: string)
    requires i < |members| && members[i].0 == key
    requires key !in Keys(members[..i])
    ensures Lookup(members, key) == Some(members[i].1)
  {
    if i > 0 {
      assert members[0].0 == Keys(members[..i])[0];
      assert Keys(members[1..][..i - 1]) == Keys(members[..i])[1..] by {
        assert members[1..][..i - 1] == members[..i][1..];
      }
      LookupFirst(members[1..], i - 1, key);
    }
  }

  /** No key occurs twice; every object the client builds has this shape. */
  predicate Distinct(ks: seq<string>) {
    forall i, j :: 0 <= i < j < |ks| ==> ks[i] != ks[j]
  }

  /** In an object with distinct keys, each member is found under its own key. */
  lemma LookupDistinct(members: seq<(string, Json)>, i: nat)
    requires Distinct(Keys(members)) && i < |members|
    ensures Lookup(members, members[i].0) == Some(members[i].1)
  {
    LookupFirst(members, i, members[i].0);
  }

  /** `json.get(key)`: the member of an object, absent for anything else. */
  function Field(j: Json, key: string): Option<Json>
  {
    if j.JObject? then Lookup(j.members, key) else None
  }

  /** A member that must be a JSON string. */
  function TextField(j: Json, key: string): Option<string>
  {
    match Field(j, key)
    case Some(JString(s)) => Some(s)
    case _ => None
  }

  /** The items of a JsonArray filled by adding each string in turn. */
  function StringItems(xs: seq<string>): (items: seq<Json>)
    ensures |items| == |xs|
    ensures forall i :: 0 <= i < |xs| ==> items[i] == JString(xs[i])
  {
    if |xs| == 0 then [] else StringItems(xs[..|xs| - 1]) + [JString(xs[|xs| - 1])]
  }

  /** A JSON array of strings. */
  function StringArray(xs: seq<string>): Json
  {
    JArray(StringItems(xs))
  }

  /** Reads back array items that must all be strings. */
  function DecodeStrings(items: seq<Json>): Option<seq<string>>
  {
    if |items| == 0 then Some([])
    else
      match items[0]
      case JString(s) =>
        var rest :- DecodeStrings(items[1..]);
        Some([s] + rest)
      case _ => None
  }

  /** Reads back an array of strings. */
  function AsStrings(j: Json): Option<seq<string>>
  {
    if j.JArray? then DecodeStrings(j.items) else None
  }

  /** A member that must be an array of strings. */
  function StringsField(j: Json, key: string): Option<seq<string>>
  {
    var a :- Field(j, key);
    AsStrings(a)
  }

  lemma {:induction false} DecodeStringsExact(items: seq<Json>, xs: seq<string>)
    requires |items| == |xs|
    requires forall i :: 0 <= i < |xs| ==> items[i] == JString(xs[i])
    ensures DecodeStrings(items) == Some(xs)
  {
    if |items| > 0 {
      DecodeStringsExact(items[1..], xs[1..]);
      assert [xs[0]] + xs[1..] == xs;
    }
  }

  /** A string array reads back as the same strings in the same order. */
  lemma StringArrayRoundTrip(xs: seq<string>)
    ensures AsStrings(StringArray(xs)) == Some(xs)
  {
    DecodeStringsExact(StringItems(xs), xs);
  }

  /** An array read back as strings holds exactly those strings, in order. */
  lemma {:induction false} DecodeStringsSound(items: seq<Json>)
    requires DecodeStrings(items).Some?
    ensures StringItems(DecodeStrings(items).value) == items
  {
    if |items| > 0 {
      DecodeStringsSound(items[1..]);
      var xs := DecodeStrings(items).value;
      assert |StringItems(xs)| == |items|;
    }
  }

  /**
   * The string-array reader accepts exactly the arrays `StringArray` builds:
   * a value reads back as `xs` if and only if it is the array of `xs`.
   */
  lemma AsStringsExactly(j: Json, xs: seq<string>)
    ensures AsStrings(j) == Some(xs) <==> j == StringArray(xs)
  {
    if AsStrings(j) == Some(xs) {
      DecodeStringsSound(j.items);
    }
    StringArrayRoundTrip(xs);
  }
}

=== FILE: listener.dfy ===
/**
 * The MoorInspectorMessageListener callbacks, the client's listener set and
 * the fan-out of one callback to every registered listener.
 */
module Listener {
  import opened JsonTree
  import opened Protocol

  /** The identity of a listener object; the set holds listeners by reference. */
  type ListenerId = nat

  /** One callback of the listener interface, with its arguments. */
  datatype Event =
    | Closed
    | FilterData(tableId: string, requestId: string, rows: seq<Row>, columns: seq<string>)
    | UpdateResult(tableId: string, requestId: string, numRowsUpdated: int)
    | BulkUpdateResult(requestId: string)
    | ServerInfoReceived(serverInfo: ServerInfo)
    | Error(requestId: string, message: string)
    | Ready
    | ExportResult(databaseId: string, requestId: string, exportResponse: ExportResponse)

  /** One callback invoked on one listener. */
  datatype Delivery = Delivery(listener: ListenerId, event: Event)

  /** `registerMessageListener`: HashSet.add. */
  function Register(listeners: set<ListenerId>, id: ListenerId): (r: set<ListenerId>)
    ensures id in r
    ensures forall x :: x != id ==> (x in r <==> x in listeners)
    ensures id in listeners ==> r == listeners
  {
    listeners + {id}
  }

  /** `unregisterMessageListener`: HashSet.remove. */
  function Unregister(listeners: set<ListenerId>, id: ListenerId): (r: set<ListenerId>)
    ensures id !in r
    ensures forall x :: x != id ==> (x in r <==> x in listeners)
    ensures id !in listeners ==> r == listeners
  {
    listeners - {id}
  }

  /** `clientListeners.forEach { it.onX(...) }`, delivery order left unspecified. */
  function FanOut(listeners: set<ListenerId>, e: Event): (m: multiset<Delivery>)
    ensures forall d :: m[d] == (if d.listener in listeners && d.event == e then 1 else 0)
  {
    multiset(set l | l in listeners :: Delivery(l, e))
  }

  /** Registering twice and unregistering once leaves the listener unregistered. */
  lemma RegisterTwiceUnregisterOnce(listeners: set<ListenerId>, id: ListenerId)
    ensures id !in Unregister(Register(Register(listeners, id), id), id)
    ensures Unregister(Register(Register(listeners, id), id), id) == Unregister(listeners, id)
  {
  }
}

=== FILE: numbers.dfy ===
/**
 * Kotlin `Int` arithmetic and the decimal text StringBuilder.append(Int)
 * produces. Dafny integers are unbounded, so the 32-bit wrap-around is
 * written out.
 */
module Numbers {
  import opened Wrappers

  const Int32Min: int := -0x8000_0000
  const Int32Max: int := 0x7fff_ffff
  const Int32Modulus: int := 0x1_0000_0000

  /** Values a Kotlin `Int` can hold. */
  type int32 = x: int | -0x8000_0000 <= x <= 0x7fff_ffff

  /** Two's-complement wrap-around of an exact result into an `Int`. */
  function WrapInt32(x: int): (r: int32)
    ensures (x - r) % Int32Modulus == 0
    ensures Int32Min <= x <= Int32Max ==> r == x
  {
    (x - Int32Min) % Int32Modulus + Int32Min
  }

  lemma ShiftMod(x: int, k: int)
    ensures (x + k * Int32Modulus) % Int32Modulus == x % Int32Modulus
  {
  }

  /** Wrapping after every addition gives the same `Int` as wrapping once at the end. */
  lemma WrapAdd(a: int, b: int)
    ensures WrapInt32(WrapInt32(a) + b) == WrapInt32(a + b)
  {
    var k := (a - Int32Min) / Int32Modulus;
    assert WrapInt32(a) == a - k * Int32Modulus;
    ShiftMod(a + b - Int32Min, -k);
  }

  predicate IsDigit(c: char) {
    '0' <= c <= '9'
  }

  predicate AllDigits(s: string) {
    forall i :: 0 <= i < |s| ==> IsDigit(s[i])
  }

  /** A character that can occur in the decimal text of an `Int`. */
  predicate IsNumberChar(c: char) {
    IsDigit(c) || c == '-'
  }

  predicate AllNumberChars(s: string) {
    forall i :: 0 <= i < |s| ==> IsNumberChar(s[i])
  }

  function DigitChar(d: nat): (c: char)
    requires d < 10
    ensures IsDigit(c)
  {
    ('0' as int + d) as char
  }

  function DigitValue(c: char): (d: nat)
    requires IsDigit(c)
    ensures d < 10
  {
    c as int - '0' as int
  }

  /** Decimal digits of a natural number, most significant first, no leading zeros. */
  function NatText(n: nat): (s: string)
    ensures |s| > 0 && AllDigits(s)
    ensures |s| > 1 ==> s[0] != '0'
  {
    if n < 10 then [DigitChar(n)] else NatText(n / 10) + [DigitChar(n % 10)]
  }

  /** `Integer.toString`: a minus sign for negative values, then the digits. */
  function IntText(i: int): (s: string)
    ensures |s| > 0 && AllNumberChars(s)
    ensures s[0] == '-' <==> i < 0
  {
    if i < 0 then "-" + NatText(-i) else NatText(i)
  }

  /** The value of a string of decimal digits. */
  function DigitsValue(s: string): nat
    requires AllDigits(s)
  {
    if |s| == 0 then 0 else DigitsValue(s[..|s| - 1]) * 10 + DigitValue(s[|s| - 1])
  }

  /** Reads an optionally signed decimal number; anything else is rejected. */
  function ParseInt(s: string): Option<int>
  {
    if |s| > 1 && s[0] == '-' && AllDigits(s[1..]) then
      var magnitude: int := DigitsValue(s[1..]);
      Some(-magnitude)
    else if |s| > 0 && AllDigits(s) then Some(DigitsValue(s))
    else None
  }

  lemma {:induction false} NatTextValue(n: nat)
    ensures DigitsValue(NatText(n)) == n
  {
    if n >= 10 {
      NatTextValue(n / 10);
      var s := NatText(n);
      assert s[..|s| - 1] == NatText(n / 10);
    }
  }

  /** The decimal text of every `Int` reads back as that value. */
  lemma IntTextRoundTrip(i: int)
    ensures ParseInt(IntText(i)) == Some(i)
  {
    if i < 0 {
      NatTextValue(-i);
      assert IntText(i)[1..] == NatText(-i);
    } else {
      NatTextValue(i);
    }
  }
}

=== FILE: protocol.dfy ===
/**
 * The payload types the protocol handler hands to listeners. Their classes
 * live in the client.protocol package, which is not part of this model; only
 * the fields the client and the status bar read are kept.
 */
module Protocol {
  import opened JsonTree
  import opened Numbers

  datatype Table = Table(name: string)

  datatype Structure = Structure(tables: seq<Table>)

  datatype Database = Database(name: string, structure: Structure)

  /** What the server reports about itself; replaced wholesale on each report. */
  datatype ServerInfo = ServerInfo(bundleId: string, protocolVersion: int32, databases: seq<Database>)

  /** One result row: column name to value, a missing SQL value being JNull. */
  type Row = map<string, Json>

  /** The export payload is opaque to the client. */
  type ExportResponse = Json
}

=== FILE: statusbar.dfy ===
/**
 * MoorInspectorStatusBar as a listener: its connection status and stored
 * server info, the label text and icon it shows, and how `onServerInfo`,
 * `onReady` and `onClosed` change them. The Swing side (panel, border,
 * `ensureMain`) is left out; the localized strings are parameters.
 */
module StatusBar {
  import opened Wrappers
  import opened Numbers
  import opened Protocol
  import opened Listener

  datatype Status = Connected | Disconnected

  /** The localized texts StatusConnected, StatusConnectedTo and StatusDisconnected. */
  datatype Texts = Texts(connected: string, connectedTo: string, disconnected: string)

  /** The widget: its two fields, and what its label and icon currently show. */
  datatype Bar = Bar(status: Status, serverInfo: Option<ServerInfo>, caption: string, icon: Status)

  // ---------------------------------------------------------------------------
  // Table count
  // ---------------------------------------------------------------------------

  /** The exact number of tables over all databases. */
  function TableCount(databases: seq<Database>): nat
  {
    if |databases| == 0 then 0
    else |databases[0].structure.tables| + TableCount(databases[1..])
  }

  lemma {:induction false} TableCountAppend(a: seq<Database>, b: seq<Database>)
    ensures TableCount(a + b) == TableCount(a) + TableCount(b)
  {
    if |a| == 0 {
      assert a + b == b;
    } else {
      assert (a + b)[0] == a[0];
      assert (a + b)[1..] == a[1..] + b;
      TableCountAppend(a[1..], b);
    }
  }

  /** Appending a database adds exactly its tables, so the exact count never drops. */
  lemma TableCountGrows(databases: seq<Database>, db: Database)
    ensures TableCount(databases + [db]) == TableCount(databases) + |db.structure.tables|
    ensures TableCount(databases + [db]) >= TableCount(databases)
  {
    TableCountAppend(databases, [db]);
    assert [db][1..] == [];
  }

  /** The count shown: `sumBy` adds in `Int`, so the exact sum wraps at 32 bits. */
  function ShownTableCount(databases: seq<Database>): int32
  {
    WrapInt32(TableCount(databases))
  }

  /**
   * The shown count can drop: one more table past `Int.MAX_VALUE` wraps to
   * `Int.MIN_VALUE`.
   */
  lemma ShownTableCountWraps(databases: seq<Database>, db: Database)
    requires TableCount(databases) == Int32Max && |db.structure.tables| == 1
    ensures ShownTableCount(databases) == Int32Max
    ensures ShownTableCount(databases + [db]) == Int32Min
  {
    TableCountGrows(databases, db);
    var r := ShownTableCount(databases + [db]);
    assert (Int32Max + 1 - r) % Int32Modulus == 0;
  }

  /** `databases.sumBy { it.structure.tables.size }`, wrapping after every addition. */
  method SumTables(databases: seq<Database>) returns (count: int32)
    ensures count == ShownTableCount(databases)
    ensures TableCount(databases) <= Int32Max ==> count == TableCount(databases)
  {
    count := 0;
    var i := 0;
    while i < |databases|
      invariant 0 <= i <= |databases|
      invariant count == WrapInt32(TableCount(databases[..i]))
    {
      assert databases[..i + 1] == databases[..i] + [databases[i]];
      TableCountGrows(databases[..i], databases[i]);
      WrapAdd(TableCount(databases[..i]), |databases[i].structure.tables|);
      count := WrapInt32(count + |databases[i].structure.tables|);
      i := i + 1;
    }
    assert databases[..i] == databases;
  }

  // ---------------------------------------------------------------------------
  // Label text
  // ---------------------------------------------------------------------------

  const DatabasesSuffix: string := " database(s) - "
  const TablesSuffix: string := " table(s)) - V"

  /** `buildText`: the prefix, then, when server info is present, what the server reported. */
  function BuildText(prefix: string, glue: string, info: Option<ServerInfo>): (text: string)
    ensures info.None? ==> text == prefix
    ensures info.Some? ==> prefix + " " + glue + " " + info.value.bundleId <= text
  {
    match info
    case None => prefix
    case Some(i) =>
      prefix + " " + glue + " " + i.bundleId
      + " (" + IntText(|i.databases|)
      + DatabasesSuffix + IntText(ShownTableCount(i.databases))
      + TablesSuffix + IntText(i.protocolVersion)
  }

  /** `updateStatusText`'s choice of text. */
  function StatusText(texts: Texts, status: Status, info: Option<ServerInfo>): (text: string)
    ensures status == Disconnected ==> text == texts.disconnected
    ensures status == Connected && info.None? ==> text == texts.connected
  {
    match status
    case Connected => BuildText(texts.connected, texts.connectedTo, info)
    case Disconnected => texts.disconnected
  }

  // ---------------------------------------------------------------------------
  // Reading the label back
  // ---------------------------------------------------------------------------

  /** The parts of a connected label with server info. */
  datatype LabelFields = LabelFields(head: string, databases: int, tables: int, protocolVersion: int)

  /** Splits off the longest run of number characters at the end. */
  function TrailingNumber(s: string): (r: (string, string))
    ensures r.0 + r.1 == s && AllNumberChars(r.1)
  {
    if |s| > 0 && IsNumberChar(s[|s| - 1]) then
      var (front, number) := TrailingNumber(s[..|s| - 1]);
      (front, number + [s[|s| - 1]])
    else (s, [])
  }

  lemma {:induction false} TrailingNumberOf(front: string, number: string)
    requires AllNumberChars(number)
    requires |front| > 0 && !IsNumberChar(front[|front| - 1])
    ensures TrailingNumber(front + number) == (front, number)
    decreases |number|
  {
    var s := front + number;
    if |number| == 0 {
      assert s == front;
    } else {
      var shorter := number[..|number| - 1];
      assert s[..|s| - 1] == front + shorter;
      assert s[|s| - 1] == number[|number| - 1];
      TrailingNumberOf(front, shorter);
      assert shorter + [number[|number| - 1]] == number;
    }
  }

  /** Drops a fixed suffix, failing when it is not there. */
  function DropSuffix(s: string, suffix: string): (r: Option<string>)
    ensures r.Some? <==> |suffix| <= |s| && s[|s| - |suffix|..] == suffix
    ensures r.Some? ==> r.value + suffix == s
  {
    if |suffix| <= |s| && s[|s| - |suffix|..] == suffix then Some(s[..|s| - |suffix|]) else None
  }

  lemma DropSuffixOf(s: string, suffix: string)
    ensures DropSuffix(s + suffix, suffix) == Some(s)
  {
    var t := s + suffix;
    assert t[|t| - |suffix|..] == suffix;
    assert t[..|t| - |suffix|] == s;
  }

  /** Reads a connected label from its right-hand end, so the bundle id may hold anything. */
  function ReadLabel(text: string): Option<LabelFields>
  {
    var (rest1, versionText) := TrailingNumber(text);
    var version :- ParseInt(versionText);
    var rest2 :- DropSuffix(rest1, TablesSuffix);
    var (rest3, tablesText) := TrailingNumber(rest2);
    var tables :- ParseInt(tablesText);
    var rest4 :- DropSuffix(rest3, DatabasesSuffix);
    var (rest5, databasesText) := TrailingNumber(rest4);
    var databases :- ParseInt(databasesText);
    var head :- DropSuffix(rest5, " (");
    Some(LabelFields(head, databases, tables, version))
  }

  /**
   * A connected label with server info shows the database count, the table
   * count and the protocol version, and each reads back exactly, whatever
   * the prefix, glue and bundle id.
   */
  lemma ReadLabelRoundTrip(prefix: string, glue: string, info: ServerInfo)
    ensures ReadLabel(BuildText(prefix, glue, Some(info)))
         == Some(LabelFields(prefix + " " + glue + " " + info.bundleId,
                             |info.databases|, ShownTableCount(info.databases), info.protocolVersion))
  {
    var head := prefix + " " + glue + " " + info.bundleId;
    var n := IntText(|info.databases|);
    var t := IntText(ShownTableCount(info.databases));
    var v := IntText(info.protocolVersion);
    var e := head + " (";
    var c := e + n + DatabasesSuffix;
    var a := c + t + TablesSuffix;
    assert BuildText(prefix, glue, Some(info)) == a + v;
    TrailingNumberOf(a, v);
    IntTextRoundTrip(info.protocolVersion);
    DropSuffixOf(c + t, TablesSuffix);
    TrailingNumberOf(c, t);
    IntTextRoundTrip(ShownTableCount(info.databases));
    DropSuffixOf(e + n, DatabasesSuffix);
    TrailingNumberOf(e, n);
    IntTextRoundTrip(|info.databases|);
    DropSuffixOf(head, " (");
  }

  // ---------------------------------------------------------------------------
  // Transitions
  // ---------------------------------------------------------------------------

  /** The widget as constructed: disconnected, no server info, text and icon set once. */
  function Init(texts: Texts): (b: Bar)
    ensures b.status == Disconnected && b.serverInfo == None
    ensures b.caption == texts.disconnected && b.icon == Disconnected
  {
    Bar(Disconnected, None, StatusText(texts, Disconnected, None), Disconnected)
  }

  /** `onServerInfo`: replace the stored info wholesale and redraw the text. */
  function OnServerInfo(texts: Texts, b: Bar, info: ServerInfo): (r: Bar)
    ensures r.status == b.status && r.icon == b.icon && r.serverInfo == Some(info)
    ensures b.status == Disconnected ==> r.caption == texts.disconnected
    ensures b.status == Connected ==> r.caption == BuildText(texts.connected, texts.connectedTo, Some(info))
  {
    b.(serverInfo := Some(info), caption := StatusText(texts, b.status, Some(info)))
  }

  /** `onReady`: mark connected and redraw the icon; the text is not recomputed. */
  function OnReady(b: Bar): (r: Bar)
    ensures r.status == Connected && r.icon == Connected
    ensures r.serverInfo == b.serverInfo && r.caption == b.caption
  {
    b.(status := Connected, icon := Connected)
  }

  /** `onClosed`: mark disconnected, forget the server info, redraw icon and text. */
  function OnClosed(texts: Texts, b: Bar): (r: Bar)
    ensures r.status == Disconnected && r.serverInfo == None
    ensures r.caption == texts.disconnected && r.icon == Disconnected
  {
    var r := b.(status := Disconnected, serverInfo := None);
    r.(icon := r.status, caption := StatusText(texts, r.status, r.serverInfo))
  }

  /** The bar as a listener; the other callbacks keep the interface's empty defaults. */
  function OnEvent(texts: Texts, b: Bar, e: Event): Bar
  {
    match e
    case ServerInfoReceived(info) => OnServerInfo(texts, b, info)
    case Ready => OnReady(b)
    case Closed => OnClosed(texts, b)
    case _ => b
  }

  /** Callbacks delivered to the bar in order. */
  function Feed(texts: Texts, b: Bar, events: seq<Event>): Bar
    decreases |events|
  {
    if |events| == 0 then b else Feed(texts, OnEvent(texts, b, events[0]), events[1..])
  }

  /** Closing returns the bar to its initial state, whatever came before. */
  lemma CloseResets(texts: Texts, b: Bar)
    ensures OnClosed(texts, b) == Init(texts)
  {
  }

  /** The icon always matches the status. */
  predicate IconCurrent(b: Bar) {
    b.icon == b.status
  }

  /** The label shows the text the current status and server info call for. */
  predicate LabelCurrent(texts: Texts, b: Bar) {
    b.caption == StatusText(texts, b.status, b.serverInfo)
  }

  lemma {:induction false} IconStaysCurrent(texts: Texts, b: Bar, events: seq<Event>)
    requires IconCurrent(b)
    ensures IconCurrent(Feed(texts, b, events))
    decreases |events|
  {
    if |events| > 0 {
      IconStaysCurrent(texts, OnEvent(texts, b, events[0]), events[1..]);
    }
  }

  /** Every callback but `onReady` leaves a current label current. */
  lemma LabelStaysCurrent(texts: Texts, b: Bar, e: Event)
    requires LabelCurrent(texts, b) && e != Ready
    ensures LabelCurrent(texts, OnEvent(texts, b, e))
  {
  }

  lemma {:induction false} FeedAppend(texts: Texts, b: Bar, first: seq<Event>, second: seq<Event>)
    ensures Feed(texts, b, first + second) == Feed(texts, Feed(texts, b, first), second)
    decreases |first|
  {
    if |first| == 0 {
      assert first + second == second;
    } else {
      assert (first + second)[0] == first[0];
      assert (first + second)[1..] == first[1..] + second;
      FeedAppend(texts, OnEvent(texts, b, first[0]), first[1..], second);
    }
  }

  /** A run of callbacks without `onReady` keeps a current label current. */
  lemma {:induction false} ReadyFreeKeepsLabel(texts: Texts, b: Bar, events: seq<Event>)
    requires LabelCurrent(texts, b)
    requires forall k :: 0 <= k < |events| ==> events[k] != Ready
    ensures LabelCurrent(texts, Feed(texts, b, events))
    decreases |events|
  {
    if |events| > 0 {
      LabelStaysCurrent(texts, b, events[0]);
      ReadyFreeKeepsLabel(texts, OnEvent(texts, b, events[0]), events[1..]);
    }
  }

  /**
   * Whatever happened before, the label is current once server info or a
   * close has arrived and no `onReady` has come since.
   */
  lemma LabelCurrentSinceRefresh(texts: Texts, b: Bar, before: seq<Event>, refresh: Event, since: seq<Event>)
    requires refresh.ServerInfoReceived? || refresh.Closed?
    requires forall k :: 0 <= k < |since| ==> since[k] != Ready
    ensures LabelCurrent(texts, Feed(texts, b, before + [refresh] + since))
  {
    FeedAppend(texts, b, before + [refresh], since);
    FeedAppend(texts, b, before, [refresh]);
    var refreshed := Feed(texts, b, before + [refresh]);
    assert refreshed == OnEvent(texts, Feed(texts, b, before), refresh);
    ReadyFreeKeepsLabel(texts, refreshed, since);
  }

  /**
   * `onReady` does not redraw the text: straight after connecting, the label
   * still shows the disconnected text until server info arrives.
   */
  lemma ReadyLeavesLabelStale(texts: Texts)
    ensures OnReady(Init(texts)).status == Connected
    ensures OnReady(Init(texts)).caption == texts.disconnected
    ensures LabelCurrent(texts, OnReady(Init(texts))) <==> texts.disconnected == texts.connected
  {
  }

  /** The server info that follows `onReady` brings the label up to date. */
  lemma ReadyThenServerInfo(texts: Texts, b: Bar, info: ServerInfo)
    ensures LabelCurrent(texts, OnServerInfo(texts, OnReady(b), info))
    ensures OnServerInfo(texts, OnReady(b), info).caption == BuildText(texts.connected, texts.connectedTo, Some(info))
  {
  }
}

=== FILE: wire.dfy ===
/**
 * The partner of the command builders: how a server reads each outbound
 * frame, and the proofs that every frame reads back as the request its
 * command method was asked to make.
 */
module Wire {
  import opened Wrappers
  import opened JsonTree
  import opened Commands

  /** One statement of a batch as the server reads it. */
  datatype BatchItem = BatchItem(databaseId: string, query: string, affectedTables: seq<string>, variables: Json)

  /** The request a frame asks the server to carry out. */
  datatype Request =
    | FilterRequest(databaseId: string, requestId: string, query: string)
    | UpdateRequest(databaseId: string, requestId: string, query: string, affectedTables: seq<string>, variables: Json)
    | BatchRequest(requestId: string, items: seq<BatchItem>)
    | ExportRequest(databaseId: string, requestId: string, tables: seq<string>)

  /**
   * A character that cannot stand unescaped in the body of a JSON string
   * literal (section 7 of RFC 8259): the quote that ends it, the backslash
   * that starts an escape, and the control characters U+0000 to U+001F.
   */
  predicate IsStringDelimiter(c: char) {
    c == '"' || c == '\\' || c < ' '
  }

  /** Text that a JSON reader takes verbatim inside a string literal. */
  predicate Plain(s: string) {
    forall i :: 0 <= i < |s| ==> !IsStringDelimiter(s[i])
  }

  /** Splits off the body of a string literal: the text up to the first character that cannot stand unescaped. */
  function LiteralBody(s: string): (r: (string, string))
    ensures Plain(r.0) && r.0 + r.1 == s
    ensures |r.1| > 0 ==> IsStringDelimiter(r.1[0])
  {
    if |s| == 0 || IsStringDelimiter(s[0]) then ([], s)
    else
      var (body, rest) := LiteralBody(s[1..]);
      ([s[0]] + body, rest)
  }

  lemma {:induction false} LiteralBodyOf(p: string, t: string)
    requires Plain(p)
    requires |t| > 0 && IsStringDelimiter(t[0])
    ensures LiteralBody(p + t) == (p, t)
  {
    if |p| == 0 {
      assert p + t == t;
    } else {
      assert (p + t)[0] == p[0] && !IsStringDelimiter(p[0]);
      assert (p + t)[1..] == p[1..] + t;
      LiteralBodyOf(p[1..], t);
      assert [p[0]] + p[1..] == p;
    }
  }

  /** Drops a fixed prefix, failing when it is not there. */
  function DropPrefix(s: string, prefix: string): (r: Option<string>)
    ensures r.Some? <==> prefix <= s
    ensures r.Some? ==> prefix + r.value == s
  {
    if prefix <= s then Some(s[|prefix|..]) else None
  }

  lemma DropPrefixOf(prefix: string, rest: string)
    ensures DropPrefix(prefix + rest, prefix) == Some(rest)
  {
    assert (prefix + rest)[|prefix|..] == rest;
  }

  /** Reads a filter frame's text the way a JSON reader sees the template. */
  function ReadQueryText(s: string): Option<Request>
  {
    var afterHead :- DropPrefix(s, FilterHead);
    var (databaseId, rest1) := LiteralBody(afterHead);
    var afterDatabase :- DropPrefix(rest1, AfterDatabaseId);
    var (requestId, rest2) := LiteralBody(afterDatabase);
    var afterRequest :- DropPrefix(rest2, AfterRequestId);
    var (query, rest3) := LiteralBody(afterRequest);
    if rest3 == FilterTail then Some(FilterRequest(databaseId, requestId, query)) else None
  }

  /**
   * Reading the template with plain arguments spliced in: the read succeeds
   * exactly when what follows the query text is the template's tail.
   */
  lemma ReadTemplate(requestId: string, databaseId: string, query: string, rest: string)
    requires Plain(requestId) && Plain(databaseId) && Plain(query)
    requires |rest| > 0 && IsStringDelimiter(rest[0])
    ensures ReadQueryText(FilterHead + databaseId + AfterDatabaseId + requestId + AfterRequestId + query + rest)
         == if rest == FilterTail then Some(FilterRequest(databaseId, requestId, query)) else None
  {
    var tail2 := AfterRequestId + (query + rest);
    var tail1 := AfterDatabaseId + (requestId + tail2);
    var s := FilterHead + databaseId + AfterDatabaseId + requestId + AfterRequestId + query + rest;
    assert s == FilterHead + (databaseId + tail1);
    DropPrefixOf(FilterHead, databaseId + tail1);
    LiteralBodyOf(databaseId, tail1);
    DropPrefixOf(AfterDatabaseId, requestId + tail2);
    LiteralBodyOf(requestId, tail2);
    DropPrefixOf(AfterRequestId, query + rest);
    LiteralBodyOf(query, rest);
  }

  /** For plain arguments, the text of `query` carries the three arguments verbatim. */
  lemma QueryTextRoundTrip(requestId: string, databaseId: string, query: string)
    requires Plain(requestId) && Plain(databaseId) && Plain(query)
    ensures ReadQueryText(QueryText(requestId, databaseId, query)) == Some(FilterRequest(databaseId, requestId, query))
  {
    ReadTemplate(requestId, databaseId, query, FilterTail);
  }

  /**
   * A quote, backslash or control character in the query is spliced in
   * unescaped, so the frame no longer matches the template. A quote ends the
   * string early; a backslash starts an escape, so a JSON reader changes or
   * rejects the text; a raw control character is not allowed in JSON text.
   */
  lemma QueryTextUnescapedRejected(requestId: string, databaseId: string, before: string, c: char, after: string)
    requires Plain(requestId) && Plain(databaseId) && Plain(before)
    requires IsStringDelimiter(c)
    ensures ReadQueryText(QueryText(requestId, databaseId, before + [c] + after)) == None
  {
    var rest := [c] + after + FilterTail;
    assert QueryText(requestId, databaseId, before + [c] + after)
        == FilterHead + databaseId + AfterDatabaseId + requestId + AfterRequestId + before + rest;
    ReadTemplate(requestId, databaseId, before, rest);
    assert |rest| > |FilterTail|;
  }

  /** A multi-line query, for one, does not match the template. */
  lemma MultiLineQueryRejected()
    ensures ReadQueryText(QueryText("r1", "db1", "SELECT *\nFROM t")) == None
  {
    assert "SELECT *\nFROM t" == "SELECT *" + ['\n'] + "FROM t";
    QueryTextUnescapedRejected("r1", "db1", "SELECT *", '\n', "FROM t");
  }

  /** The `query` text up to the closing of the query string. */
  function OpenQueryText(requestId: string, databaseId: string, query: string): string
  {
    FilterHead + databaseId + AfterDatabaseId + requestId + AfterRequestId + query
  }

  /**
   * Injection: a query that carries a member separator and more text yields
   * the frame for the leading part of the query with one more member after
   * it: a second `query` (separator `","query":"`) or a second `requestId`
   * (separator `","requestId":"`). This states the text only, not what a
   * JSON reader makes of it.
   */
  lemma QueryTextInjection(requestId: string, databaseId: string, query: string, separator: string, injected: string)
    requires separator == AfterRequestId || separator == AfterDatabaseId
    ensures QueryText(requestId, databaseId, query) == OpenQueryText(requestId, databaseId, query) + FilterTail
    ensures QueryText(requestId, databaseId, query + separator + injected)
         == OpenQueryText(requestId, databaseId, query) + separator + injected + FilterTail
  {
  }

  // ---------------------------------------------------------------------------
  // The reader: what a server takes each frame to ask for
  // ---------------------------------------------------------------------------

  function ReadUpdate(body: Json): Option<Request>
  {
    var databaseId :- TextField(body, "databaseId");
    var requestId :- TextField(body, "requestId");
    var query :- TextField(body, "query");
    var tables :- StringsField(body, "affectedTables");
    var variables :- Field(body, "variables");
    Some(UpdateRequest(databaseId, requestId, query, tables, variables))
  }

  function ReadBatchItem(j: Json): Option<BatchItem>
  {
    var kind :- TextField(j, "type");
    if kind != "update" then None
    else
      var body :- Field(j, "body");
      var databaseId :- TextField(body, "databaseId");
      var query :- TextField(body, "query");
      var tables :- StringsField(body, "affectedTables");
      var variables :- Field(body, "variables");
      Some(BatchItem(databaseId, query, tables, variables))
  }

  function ReadBatchItems(items: seq<Json>): Option<seq<BatchItem>>
  {
    if |items| == 0 then Some([])
    else
      var first :- ReadBatchItem(items[0]);
      var rest :- ReadBatchItems(items[1..]);
      Some([first] + rest)
  }

  function ReadBatch(body: Json): Option<Request>
  {
    var requestId :- TextField(body, "requestId");
    var actions :- Field(body, "actions");
    if !actions.JArray? then None
    else
      var items :- ReadBatchItems(actions.items);
      Some(BatchRequest(requestId, items))
  }

  function ReadExport(body: Json): Option<Request>
  {
    var databaseId :- TextField(body, "databaseId");
    var requestId :- TextField(body, "requestId");
    var tables :- StringsField(body, "tables");
    Some(ExportRequest(databaseId, requestId, tables))
  }

  function ReadFilter(body: Json): Option<Request>
  {
    var databaseId :- TextField(body, "databaseId");
    var requestId :- TextField(body, "requestId");
    var query :- TextField(body, "query");
    Some(FilterRequest(databaseId, requestId, query))
  }

  /** Reads an outbound envelope tree by its `type`. */
  function ReadTree(j: Json): Option<Request>
  {
    var kind :- TextField(j, "type");
    var body :- Field(j, "body");
    ReadBody(kind, body)
  }

  /** Reads an envelope body according to the envelope's `type`. */
  function ReadBody(kind: string, body: Json): Option<Request>
  {
    if kind == "filter" then ReadFilter(body)
    else if kind == "update" then ReadUpdate(body)
    else if kind == "batch" then ReadBatch(body)
    else if kind == "export" then ReadExport(body)
    else None
  }

  /** Reads any outbound frame. */
  function ReadFrame(f: Frame): Option<Request>
  {
    match f
    case TextFrame(text) => ReadQueryText(text)
    case TreeFrame(tree) => ReadTree(tree)
  }

  /** The statements of a batch, each carrying the outer database id. */
  function BatchItems(databaseId: string, actions: seq<BulkAction>): (items: seq<BatchItem>)
    ensures |items| == |actions|
  {
    seq(|actions|, i requires 0 <= i < |actions| =>
      BatchItem(databaseId, actions[i].query, actions[i].affectedTables, actions[i].variables))
  }

  /** The request each command method is meant to make. */
  function Intent(c: Command): Request
  {
    match c
    case Query(r, d, q) => FilterRequest(d, r, q)
    case Update(r, d, q, ts, vs) => UpdateRequest(d, r, q, ts, vs)
    case BulkUpdate(r, d, acts) => BatchRequest(r, BatchItems(d, acts))
    case Export(r, d, ts) => ExportRequest(d, r, ts)
  }

  /** A command whose frame a JSON reader takes as intended. */
  predicate WellFormed(c: Command) {
    c.Query? ==> Plain(c.requestId) && Plain(c.databaseId) && Plain(c.query)
  }

  // ---------------------------------------------------------------------------
  // Round trips and shape of the batch
  // ---------------------------------------------------------------------------

  lemma EnvelopeFields(kind: string, body: seq<(string, Json)>)
    ensures TextField(Envelope(kind, body), "type") == Some(kind)
    ensures Field(Envelope(kind, body), "body") == Some(JObject(body))
  {
    var members := [("type", JString(kind)), ("body", JObject(body))];
    assert Keys(members) == ["type", "body"];
    assert Distinct(Keys(members));
    LookupDistinct(members, 0);
    LookupDistinct(members, 1);
  }

  lemma ReadEnvelope(kind: string, body: seq<(string, Json)>)
    ensures ReadTree(Envelope(kind, body)) == ReadBody(kind, JObject(body))
  {
    EnvelopeFields(kind, body);
  }

  /** The members of the body `update` builds, each found under its key. */
  lemma UpdateBodyLookups(requestId: string, databaseId: string, query: string,
                          affectedTables: seq<string>, variables: Json)
    ensures var body := UpdateBody(requestId, databaseId, query, affectedTables, variables);
      && Lookup(body, "databaseId") == Some(JString(databaseId))
      && Lookup(body, "requestId") == Some(JString(requestId))
      && Lookup(body, "query") == Some(JString(query))
      && Lookup(body, "affectedTables") == Some(StringArray(affectedTables))
      && Lookup(body, "variables") == Some(variables)
  {
    var body := UpdateBody(requestId, databaseId, query, affectedTables, variables);
    assert Keys(body) == ["databaseId", "requestId", "query", "affectedTables", "variables"];
    assert Distinct(Keys(body));
    LookupDistinct(body, 0);
    LookupDistinct(body, 1);
    LookupDistinct(body, 2);
    LookupDistinct(body, 3);
    LookupDistinct(body, 4);
  }

  /** The body `update` builds, read field by field. */
  lemma UpdateBodyFields(requestId: string, databaseId: string, query: string,
                         affectedTables: seq<string>, variables: Json)
    ensures var body := JObject(UpdateBody(requestId, databaseId, query, affectedTables, variables));
      && TextField(body, "databaseId") == Some(databaseId)
      && TextField(body, "requestId") == Some(requestId)
      && TextField(body, "query") == Some(query)
      && StringsField(body, "affectedTables") == Some(affectedTables)
      && Field(body, "variables") == Some(variables)
  {
    var body := JObject(UpdateBody(requestId, databaseId, query, affectedTables, variables));
    assert TextField(body, "databaseId") == Some(databaseId) by {
      UpdateBodyLookups(requestId, databaseId, query, affectedTables, variables);
    }
    assert TextField(body, "requestId") == Some(requestId) by {
      UpdateBodyLookups(requestId, databaseId, query, affectedTables, variables);
    }
    assert TextField(body, "query") == Some(query) by {
      UpdateBodyLookups(requestId, databaseId, query, affectedTables, variables);
    }
    assert StringsField(body, "affectedTables") == Some(affectedTables) by {
      UpdateBodyLookups(requestId, databaseId, query, affectedTables, variables);
      StringArrayRoundTrip(affectedTables);
    }
    assert Field(body, "variables") == Some(variables) by {
      UpdateBodyLookups(requestId, databaseId, query, affectedTables, variables);
    }
  }

  lemma UpdateRoundTrip(requestId: string, databaseId: string, query: string,
                        affectedTables: seq<string>, variables: Json)
    ensures ReadTree(UpdateEnvelope(requestId, databaseId, query, affectedTables, variables))
         == Some(UpdateRequest(databaseId, requestId, query, affectedTables, variables))
  {
    var body := JObject(UpdateBody(requestId, databaseId, query, affectedTables, variables));
    ReadEnvelope("update", body.members);
    assert ReadBody("update", body) == ReadUpdate(body);
    UpdateBodyFields(requestId, databaseId, query, affectedTables, variables);
    assert ReadUpdate(body) == Some(UpdateRequest(databaseId, requestId, query, affectedTables, variables));
  }

  /** The members of the body `export` builds, each found under its key. */
  lemma ExportBodyLookups(requestId: string, databaseId: string, tableNames: seq<string>)
    ensures var body := ExportBody(requestId, databaseId, tableNames);
      && Lookup(body, "databaseId") == Some(JString(databaseId))
      && Lookup(body, "requestId") == Some(JString(requestId))
      && Lookup(body, "tables") == Some(StringArray(tableNames))
  {
    var body := ExportBody(requestId, databaseId, tableNames);
    assert Keys(body) == ["databaseId", "requestId", "tables"];
    assert Distinct(Keys(body));
    LookupDistinct(body, 0);
    LookupDistinct(body, 1);
    LookupDistinct(body, 2);
  }

  lemma ExportRoundTrip(requestId: string, databaseId: string, tableNames: seq<string>)
    ensures ReadTree(ExportEnvelope(requestId, databaseId, tableNames))
         == Some(ExportRequest(databaseId, requestId, tableNames))
  {
    var body := JObject(ExportBody(requestId, databaseId, tableNames));
    ReadEnvelope("export", body.members);
    assert ReadBody("export", body) == ReadExport(body);
    assert TextField(body, "databaseId") == Some(databaseId) by {
      ExportBodyLookups(requestId, databaseId, tableNames);
    }
    assert TextField(body, "requestId") == Some(requestId) by {
      ExportBodyLookups(requestId, databaseId, tableNames);
    }
    assert StringsField(body, "tables") == Some(tableNames) by {
      ExportBodyLookups(requestId, databaseId, tableNames);
      StringArrayRoundTrip(tableNames);
    }
  }

  /** The keys of a batch action's body, in order: no per-action requestId. */
  lemma ActionBodyKeys(databaseId: string, action: BulkAction)
    ensures Keys(ActionBody(databaseId, action)) == ["databaseId", "query", "affectedTables", "variables"]
    ensures Field(JObject(ActionBody(databaseId, action)), "requestId") == None
  {
    assert Keys(ActionBody(databaseId, action)) == ["databaseId", "query", "affectedTables", "variables"];
  }

  lemma ActionBodyLookups(databaseId: string, action: BulkAction)
    ensures var body := ActionBody(databaseId, action);
      && Lookup(body, "databaseId") == Some(JString(databaseId))
      && Lookup(body, "query") == Some(JString(action.query))
      && Lookup(body, "affectedTables") == Some(StringArray(action.affectedTables))
      && Lookup(body, "variables") == Some(action.variables)
  {
    var body := ActionBody(databaseId, action);
    ActionBodyKeys(databaseId, action);
    assert Distinct(Keys(body));
    LookupDistinct(body, 0);
    LookupDistinct(body, 1);
    LookupDistinct(body, 2);
    LookupDistinct(body, 3);
  }

  /** What each member of a batch action's body holds. */
  lemma ActionBodyFields(databaseId: string, action: BulkAction)
    ensures TextField(JObject(ActionBody(databaseId, action)), "databaseId") == Some(databaseId)
    ensures TextField(JObject(ActionBody(databaseId, action)), "query") == Some(action.query)
    ensures StringsField(JObject(ActionBody(databaseId, action)), "affectedTables") == Some(action.affectedTables)
    ensures Field(JObject(ActionBody(databaseId, action)), "variables") == Some(action.variables)
  {
    var body := JObject(ActionBody(databaseId, action));
    assert TextField(body, "databaseId") == Some(databaseId) by { ActionBodyLookups(databaseId, action); }
    assert TextField(body, "query") == Some(action.query) by { ActionBodyLookups(databaseId, action); }
    assert StringsField(body, "affectedTables") == Some(action.affectedTables) by {
      ActionBodyLookups(databaseId, action);
      StringArrayRoundTrip(action.affectedTables);
    }
    assert Field(body, "variables") == Some(action.variables) by { ActionBodyLookups(databaseId, action); }
  }

  lemma ActionRoundTrip(databaseId: string, action: BulkAction)
    ensures ReadBatchItem(Envelope("update", ActionBody(databaseId, action)))
         == Some(BatchItem(databaseId, action.query, action.affectedTables, action.variables))
  {
    EnvelopeFields("update", ActionBody(databaseId, action));
    ActionBodyFields(databaseId, action);
  }

  lemma {:induction false} ReadBatchItemsExact(items: seq<Json>, expected: seq<BatchItem>)
    requires |items| == |expected|
    requires forall i :: 0 <= i < |items| ==> ReadBatchItem(items[i]) == Some(expected[i])
    ensures ReadBatchItems(items) == Some(expected)
  {
    if |items| > 0 {
      ReadBatchItemsExact(items[1..], expected[1..]);
      assert [expected[0]] + expected[1..] == expected;
    }
  }

  lemma BatchRoundTrip(requestId: string, databaseId: string, actions: seq<BulkAction>)
    ensures ReadTree(BatchEnvelope(requestId, databaseId, actions))
         == Some(BatchRequest(requestId, BatchItems(databaseId, actions)))
  {
    var items := ActionItems(databaseId, actions);
    var body := [("requestId", JString(requestId)), ("actions", JArray(items))];
    EnvelopeFields("batch", body);
    assert Keys(body) == ["requestId", "actions"];
    assert Distinct(Keys(body));
    LookupDistinct(body, 0);
    LookupDistinct(body, 1);
    assert body[0].0 == "requestId" && body[1].0 == "actions";
    forall i | 0 <= i < |items|
      ensures ReadBatchItem(items[i]) == Some(BatchItems(databaseId, actions)[i])
    {
      ActionRoundTrip(databaseId, actions[i]);
    }
    ReadBatchItemsExact(items, BatchItems(databaseId, actions));
  }

  /**
   * Every frame a command method sends reads back as the request the method
   * was asked to make; for `query` this needs arguments free of quotes,
   * backslashes and control characters, which the template splices in unescaped.
   */
  lemma EncodeRoundTrip(c: Command)
    requires WellFormed(c)
    ensures ReadFrame(Encode(c)) == Some(Intent(c))
  {
    match c
    case Query(r, d, q) => QueryTextRoundTrip(r, d, q);
    case Update(r, d, q, ts, vs) => UpdateRoundTrip(r, d, q, ts, vs);
    case BulkUpdate(r, d, acts) => BatchRoundTrip(r, d, acts);
    case Export(r, d, ts) => ExportRoundTrip(r, d, ts);
  }

  /**
   * The batch envelope: one `update` wrapper per action, in order, each body
   * carrying the outer database id and exactly the keys databaseId, query,
   * affectedTables, variables (so no per-action requestId); the request id
   * appears once, in the outer body.
   */
  lemma BatchShape(requestId: string, databaseId: string, actions: seq<BulkAction>)
    ensures var j := BatchEnvelope(requestId, databaseId, actions);
      && TextField(j, "type") == Some("batch")
      && Field(j, "body") == Some(JObject([("requestId", JString(requestId)), ("actions", JArray(ActionItems(databaseId, actions)))]))
      && |ActionItems(databaseId, actions)| == |actions|
    ensures var items := ActionItems(databaseId, actions);
      forall i :: 0 <= i < |actions| ==>
        && TextField(items[i], "type") == Some("update")
        && Field(items[i], "body") == Some(JObject(ActionBody(databaseId, actions[i])))
        && Keys(ActionBody(databaseId, actions[i])) == ["databaseId", "query", "affectedTables", "variables"]
        && Field(JObject(ActionBody(databaseId, actions[i])), "requestId") == None
        && TextField(JObject(ActionBody(databaseId, actions[i])), "databaseId") == Some(databaseId)
        && TextField(JObject(ActionBody(databaseId, actions[i])), "query") == Some(actions[i].query)
        && StringsField(JObject(ActionBody(databaseId, actions[i])), "affectedTables") == Some(actions[i].affectedTables)
  {
    EnvelopeFields("batch", [("requestId", JString(requestId)), ("actions", JArray(ActionItems(databaseId, actions)))]);
    forall i | 0 <= i < |actions|
      ensures var items := ActionItems(databaseId, actions);
        && TextField(items[i], "type") == Some("update")
        && Field(items[i], "body") == Some(JObject(ActionBody(databaseId, actions[i])))
        && Keys(ActionBody(databaseId, actions[i])) == ["databaseId", "query", "affectedTables", "variables"]
        && Field(JObject(ActionBody(databaseId, actions[i])), "requestId") == None
        && TextField(JObject(ActionBody(databaseId, actions[i])), "databaseId") == Some(databaseId)
        && TextField(JObject(ActionBody(databaseId, actions[i])), "query") == Some(actions[i].query)
        && StringsField(JObject(ActionBody(databaseId, actions[i])), "affectedTables") == Some(actions[i].affectedTables)
    {
      EnvelopeFields("update", ActionBody(databaseId, actions[i]));
      ActionBodyKeys(databaseId, actions[i]);
      ActionBodyFields(databaseId, actions[i]);
    }
  }

  /** With no actions the batch carries no database id: any two such batches are equal. */
  lemma EmptyBatchDropsDatabaseId(requestId: string, databaseId: string, otherDatabaseId: string)
    ensures Encode(BulkUpdate(requestId, databaseId, [])) == Encode(BulkUpdate(requestId, otherDatabaseId, []))
  {
  }
}

=== FILE: wrappers.dfy ===
/** Failure-compatible optional values, used for lookups and decoders that may fail. */
module Wrappers {

  /** Either a value or nothing; usable with `:-` in functions. */
  datatype Option<+T> = None | Some(value: T) {

    predicate IsFailure() {
      None?
    }

    function PropagateFailure<U>(): Option<U>
      requires None?
    {
      None
    }

    function Extract(): T
      requires Some?
    {
      value
    }
  }
}
